=== FILE: README.md ===
# Gym backend: authentication service and member-profile rules in Dafny

This project models the decision logic of a gym-management web API. The API's
other endpoints only pass data through to the database.

- **Authentication service.** It covers registration with lazy role creation,
  local login by user name or email, and federated (Google/Firebase) login. Each
  path ends in building a bearer token's claim list.
- **Member-profile controller.** It covers creating, reading, updating and
  deleting gym-member profiles. The central rule is "at most one profile per
  user".

Every operation is a pure function over an immutable state and returns a
result together with the new state:

- **The identity store** holds a table of users (id, user name, email,
  first/last name, email-confirmed flag), the set of existing role names, and a
  table of user-role memberships.
- **The profile table** is a map from profile id to profile.

Nullable strings are `Option<string>`. A thrown exception is `Failure(message)`.

Modules:

| module | file | models |
|---|---|---|
| `Results` | results.dfy | `Option` for nullable values, `Result` for values or exception messages |
| `Text` | text.dfy | `IsNullOrEmpty`, `StartsWith`, `Split(char)`, `Join`, first and second token of a split |
| `Claims` | claims.dfy | claim lists, `FindFirstValue`, `IsInRole`, the claim-type names |
| `Identity` | identity.dfy | the identity store: lookups, user creation and update, roles |
| `Tokens` | tokens.dfy | the claim list and expiry of an issued token |
| `Auth` | auth.dfy | `RegisterAsync`, `LoginAsync`, `GoogleLoginAsync` |
| `MemberProfiles` | member_profiles.dfy | `GetMyProfile`, `Get`, `Create`, `Update`, `Delete` |

Framework calls become inputs:

- **User creation.** The store's answer to `CreateAsync` is a `Verdict`:
  `Accepted`, or `Rejected` with the store's error descriptions.
- **New ids.** The new user's id (a fresh GUID) and the new profile's database
  id are parameters. Each must not already be in use.
- **Passwords.** `CheckPasswordAsync` is a function parameter.
- **Google validation.** Strict validation is an optional payload: none means
  validation threw.
- **Reading the raw token.** `ReadToken` is a `ReadOutcome`: the claim list,
  "not a JWT", or a thrown message.
- **Token id and clock.** The token's unique id (`jti`, section 4.1.7 of
  RFC 7519) and the issuing instant are parameters.

A token is its claim list plus its expiry, which is the issue instant plus
3600 seconds.

The operations that write to the identity store require it to be well formed.
User ids are unique, no role name is blank (empty or white space only, which
the role validator refuses), every membership links an existing user to an
existing role, and no membership is recorded twice. The store maintains these facts
itself, and every modelled write is proved to preserve them.

Notes on the code:

- The fallback decode's family name is only the *second* space-separated word
  of the display name; any later words are dropped
  (`Auth.FallbackTakesSecondWordOnly`: "Mary Ann Smith" gives given name
  "Mary" and family name "Ann").
- The dead `?? name` in the given-name derivation never applies, because
  `Split` always returns at least one piece.
- In the federated path, a validated payload without an email reaches
  `FindByEmailAsync(null)`. The framework then throws its null-argument message,
  and the model reports it with the "Invalid Google Token: " prefix.
- A registration whose requested role is non-empty but blank (" ") stores the
  user and then fails. The role validator refuses to create the role, the code
  ignores that refusal, and `AddToRoleAsync` throws because the role does not
  exist. The user is left without a role (`Auth.BlankRoleRegistration`).
- `Update` and `Delete` never look at the caller: any authenticated caller may
  update or delete any profile. Their only guard is the controller-wide
  `[Authorize]` attribute, which the authentication middleware enforces and
  which is not modelled.

The `RegisterDto` and `GoogleLoginDto` classes are not part of this model. The
registration fields are the ones `RegisterAsync` reads from the request.

## Model

| member | source | states |
|---|---|---|
| `Text.Split` | WebApplication1/Services/AuthService.cs:125-126 | `Split` always yields at least one piece, and no piece contains the separator. |
| `Text.JoinSplit` | WebApplication1/Services/AuthService.cs:118-126 | Joining the pieces of a split with the separator gives back the original string. |
| `Text.SplitJoin` | WebApplication1/Services/AuthService.cs:118-126 | Splitting a join of separator-free pieces gives back exactly those pieces. |
| `Text.SplitAtFirst` | WebApplication1/Services/AuthService.cs:118-126 | The first piece is the text before the first separator. When a separator exists, the other pieces are the split of the text after it. |
| `Text.FirstTokenIsPrefix` | WebApplication1/Services/AuthService.cs:118 | `Split(...).FirstOrDefault()` is the prefix before the first separator, or the whole string when there is none. For an email this is the local part before '@'. |
| `Text.SecondTokenAfterFirstSeparator` | WebApplication1/Services/AuthService.cs:126 | `Skip(1).FirstOrDefault()` is non-null exactly when a space occurs. It is then the text after the first space up to the next space (or to the end); it is not the whole remainder when a later space occurs. |
| `Text.Join` | WebApplication1/Services/AuthService.cs:46 | Joining no pieces gives "", a single piece gives itself, and with more pieces the first piece followed by the separator starts the result. |
| `Text.JoinEndsWithLast` | WebApplication1/Services/AuthService.cs:149 | The last of the joined error descriptions ends the message. |
| `Text.SplitOfWords` | WebApplication1/Services/AuthService.cs:125-126 | "Mary Ann Smith" splits into its three words; its first token is "Mary" and its second is "Ann". |
| `Claims.FindFirstValue` | WebApplication1/Services/AuthService.cs:109-110 | The value of the first claim of the requested type, or null exactly when no claim has that type. |
| `Claims.RoleValues` | WebApplication1/Services/AuthService.cs:208-211 | A value appears among the role values exactly when the list holds a role claim with that value. |
| `Claims.ClaimTypesDistinct` | WebApplication1/Services/AuthService.cs:200-210 | The seven claim types the token uses are pairwise different, so reading one claim type never returns another type's claim. |
| `Claims.NoRoleClaims` | WebApplication1/Services/AuthService.cs:198-206 | A claim list without role claims grants no role. |
| `Claims.RoleValuesAppend` | WebApplication1/Services/AuthService.cs:208-211 | The role claims of a concatenation are those of each part, in order. |
| `Claims.RoleValuesOfRoleClaims` | WebApplication1/Services/AuthService.cs:208-211 | One role claim per role name reads back as exactly that sequence of names. |
| `Identity.FindIndex` | WebApplication1/Services/AuthService.cs:67-74 | The position of the first user matching the key; null exactly when no user matches. |
| `Identity.Find` | WebApplication1/Controllers/MemberProfilesController.cs:100-101 | The lookup returns a matching user of the table, or null exactly when no user matches. |
| `Identity.RolesIn` | WebApplication1/Services/AuthService.cs:196 | A role is among a user's reported roles exactly when the membership table links that user to it. |
| `Identity.RolesOf` | WebApplication1/Services/AuthService.cs:196 | `GetRolesAsync` reports a role exactly when the membership table links the user to it, and never more names than there are memberships. |
| `Identity.RolesInAppend` | WebApplication1/Services/AuthService.cs:57 | Recording a membership adds its role at the end of its own user's roles and changes no other user's roles. |
| `Identity.RolesOfUnknownUser` | WebApplication1/Services/AuthService.cs:44-57 | In a well-formed store, an id no user has yet has no roles. |
| `Identity.RolesOfWellFormed` | WebApplication1/Services/AuthService.cs:196 | In a well-formed store, every role reported for a user exists and appears only once. |
| `Identity.CreateUser` | WebApplication1/Services/AuthService.cs:44-46 | A rejected creation fails with the error descriptions joined by ", ". An accepted one adds exactly the new user, keeps the store well formed, and leaves the other users, roles and memberships unchanged. |
| `Identity.FindAfterAppend` | WebApplication1/Services/AuthService.cs:44 | Appending a user changes no lookup that already found someone. |
| `Identity.EnsureRole` | WebApplication1/Services/AuthService.cs:52-55 | Afterwards the role exists exactly when it existed already or its name is not blank; the validator's refusal of a blank name is ignored and leaves the store unchanged. The role set gains at most that name, an existing role leaves the store unchanged, and well-formedness is kept. |
| `Identity.EnsureRoleIdempotent` | WebApplication1/Services/AuthService.cs:52-55 | Ensuring a role twice is the same as ensuring it once. |
| `Identity.AddToRole` | WebApplication1/Services/AuthService.cs:57 | The call throws "Role … does not exist." exactly when the role does not exist. Otherwise the user is afterwards a member of the role: a new membership is appended to that user's roles, an existing one is left as is, and no other user's roles change. |
| `Identity.AddToRolePreservesWf` | WebApplication1/Services/AuthService.cs:57 | Linking an existing user to an existing role succeeds and keeps the store well formed, with no duplicate memberships. |
| `Identity.UpdateUser` | WebApplication1/Services/AuthService.cs:174-177 | After the update the id finds the new record and every other id finds what it found before. The same ids exist, roles and memberships are untouched, and a well-formed store stays well formed. |
| `Identity.FindByIdUnchanged` | WebApplication1/Services/AuthService.cs:176 | Replacing the records with one id changes only what that id finds. |
| `Identity.IdsElsewhereUnchanged` | WebApplication1/Services/AuthService.cs:176 | Lookups of other ids are unaffected by the replacement. |
| `Tokens.BuildClaims` | WebApplication1/Services/AuthService.cs:198-211 | The claim list has six identity claims plus one claim per role. Its role claims read back as exactly the user's roles, in order. |
| `Tokens.IssueToken` | WebApplication1/Services/AuthService.cs:216-222 | The token expires one hour after issue, and its role claims are exactly the given roles. |
| `Tokens.IssuedClaimsReadBack` | WebApplication1/Services/AuthService.cs:198-211 | Reading the token back gives the user's id, user name, email, first name and last name (null as ""), and the jti. The holder is in a role exactly when that role was issued. |
| `Tokens.DistinctJtiDistinctTokens` | WebApplication1/Services/AuthService.cs:205 | Tokens issued with different unique ids are different, whatever the users, roles and instants. |
| `Auth.RoleToAssign` | WebApplication1/Services/AuthService.cs:49 | The assigned role is never empty: it is the requested role when one is given and non-empty, and "Client" otherwise. It is blank exactly when a non-empty blank role was requested. |
| `Auth.Register` | WebApplication1/Services/AuthService.cs:31-60 | When the store rejects the user, Register fails with the joined descriptions and the store is unchanged: no role is created or assigned. Once the store accepts the user, the user stays stored with the request's fields, and no other user's record or roles change. A non-empty blank requested role is never created, and Register then fails with the store's missing-role message, leaving the new user without roles. In every other case it returns the new id; the user's only role is the requested one when that is non-empty, otherwise exactly "Client", and that role now exists. |
| `Auth.BlankRoleRegistration` | WebApplication1/Services/AuthService.cs:49-57 | Registering with the role " " fails with "Role   does not exist.". The user is stored, has no role, and " " is not created. |
| `Auth.LookupKey` | WebApplication1/Services/AuthService.cs:67-74 | The identifier is looked up by email exactly when it contains '@', and by user name otherwise. |
| `Auth.Login` | WebApplication1/Services/AuthService.cs:62-80 | Login succeeds exactly when the single lookup finds a user whose password check passes. Every failure is "Invalid credentials". On success the token is the one issued for exactly that user and its current roles. |
| `Auth.LoginIdentifiesAccount` | WebApplication1/Services/AuthService.cs:67-79 | A successful login names an account whose password passed. For an identifier with '@', that account's email is the identifier and so is the token's email claim; otherwise its user name and name claim are. The token's role claims are the account's roles. |
| `Auth.LoginWrongPassword` | WebApplication1/Services/AuthService.cs:76-77 | If the password matches no account, login fails with "Invalid credentials", whatever the identifier. |
| `Auth.DecodeFallback` | WebApplication1/Services/AuthService.cs:100-128 | An unreadable token fails with the reader's message, and a non-JWT with "Invalid token format". A missing or empty email claim fails with "Email not found in token". Otherwise the email is that claim, and verified means the claim is exactly "true". The name is the name claim, or else the email's local part. The given name is the name's text before the first space. The family name is the second space-separated word, or "" when there is none. The subject defaults to "". A readable JWT with a non-empty email claim always decodes. |
| `Auth.ResolvePayload` | WebApplication1/Services/AuthService.cs:89-129 | The strictly validated payload wins whenever there is one. Only when validation threw does the fallback decode apply. |
| `Auth.GivenNameOf` | WebApplication1/Services/AuthService.cs:141 | The provider's given name when present; else the display name up to its first space, which contains no space; else "". |
| `Auth.FamilyNameOf` | WebApplication1/Services/AuthService.cs:142 | The provider's family name when present; else the display name's second space-separated word, or "" when it has one word; else "". |
| `Auth.Reconcile` | WebApplication1/Services/AuthService.cs:131-178 | An unknown email whose creation is rejected fails with "User creation failed: " plus the joined errors. An accepted one creates a user whose user name and email are the payload email, with the payload's verified flag and the single role "Client". For a known email, only an empty first or last name is filled, and non-empty ones are kept. The write happens exactly when one was empty; otherwise the store is unchanged. On success, every other account is found as before and keeps its roles. |
| `Auth.UniqueIdFound` | WebApplication1/Services/AuthService.cs:132 | In a well-formed store, every user is the one their id finds. |
| `Auth.GoogleLogin` | WebApplication1/Services/AuthService.cs:82-187 | Every failure leaves the store unchanged and its message starts with "Invalid Google Token: ". A success issues the token for a stored account carrying the payload's email, with that account's current roles. No other account's record or roles change. |
| `Auth.GoogleLoginFailures` | WebApplication1/Services/AuthService.cs:95-186 | The failure messages are the decode's message, the null-email message, or "User creation failed: " plus the joined errors, each behind the "Invalid Google Token: " prefix. Every other call succeeds. |
| `Auth.GoogleFirstLogin` | WebApplication1/Services/AuthService.cs:134-158 | A first federated login creates an account whose user name and email are the payload email, with the payload's verified flag. The account's only role is "Client", and the token names the new account and carries just that role. |
| `Auth.GoogleReturningLogin` | WebApplication1/Services/AuthService.cs:159-181 | For a known email, non-empty names are never overwritten and empty ones come from the payload. Roles are unchanged, the store is untouched when both names were set, and the token names the existing account. |
| `Auth.FallbackTakesSecondWordOnly` | WebApplication1/Services/AuthService.cs:118-126 | A token whose display name is "Mary Ann Smith" decodes to given name "Mary" and family name "Ann". |
| `MemberProfiles.CallerId` | WebApplication1/Controllers/MemberProfilesController.cs:45 | The caller id is the value of the first name-identifier claim, or null exactly when the token has none. |
| `MemberProfiles.GetMyProfile` | WebApplication1/Controllers/MemberProfilesController.cs:43-62 | An empty or missing caller id gives Unauthorized. Otherwise the result is a stored profile whose UserId is the caller's id, or NotFound with its message exactly when none exists. |
| `MemberProfiles.Get` | WebApplication1/Controllers/MemberProfilesController.cs:66-80 | The result is the profile with that id, or NotFound exactly when the id is absent. |
| `MemberProfiles.TargetUser` | WebApplication1/Controllers/MemberProfilesController.cs:92-114 | A non-Admin, or an Admin sending an empty user name, always targets their own id. An Admin naming a user targets that user's id, or gets "User not found." exactly when no user has that name. When a user has that name, the target is the first such user's id. |
| `MemberProfiles.Create` | WebApplication1/Controllers/MemberProfilesController.cs:84-132 | An empty caller id gives Unauthorized. An unknown Admin target gives "User not found.". An existing profile for the target gives the duplicate BadRequest. Every refusal leaves the table unchanged. A success adds exactly one profile under the new id, for a user who had none, with the request's fields. The invariant "each profile under its id, at most one per user" is preserved. A caller with an id is never refused as Unauthorized, and once the target is known the request fails exactly when the target already has a profile; otherwise the new profile belongs to the target. |
| `MemberProfiles.Apply` | WebApplication1/Controllers/MemberProfilesController.cs:142 | The update copies every request field into the profile, nulls included, and keeps its id, user and join date. |
| `MemberProfiles.ApplyLastWins` | WebApplication1/Controllers/MemberProfilesController.cs:142 | Two updates in turn leave only the second's fields, and repeating an update changes nothing. |
| `MemberProfiles.Update` | WebApplication1/Controllers/MemberProfilesController.cs:136-146 | An absent id gives NotFound with the table unchanged. Otherwise the profile takes the request's fields and keeps its id, user and join date. No other profile changes, and the invariant is preserved. |
| `MemberProfiles.Delete` | WebApplication1/Controllers/MemberProfilesController.cs:150-160 | An absent id gives NotFound with the table unchanged. Otherwise exactly that profile is removed, every other profile is unchanged, and the invariant is preserved. |
| `MemberProfiles.CreateWithIssuedToken` | WebApplication1/Controllers/MemberProfilesController.cs:86-121 | A caller whose token was issued for an account without the Admin role can create a profile only for that account. The caller is refused exactly when the account already has a profile, and succeeds otherwise. |

## Left out

- Token signing and serialisation (HMAC-SHA256, issuer, audience, key configuration) are library calls. A token is its claim list plus its expiry.
- The clock (`DateTime.UtcNow`) and `Guid.NewGuid()` are parameters. So are the user's `CreatedAt` timestamp and the profile's database id.
- Validating an issued token, including its expiry and the middleware's clock skew, is not modelled. Program start-up configuration is not part of this model.
- Google/Firebase signature validation (`GoogleJsonWebSignature.ValidateAsync`) and raw JWT parsing (`ReadToken`) are foreign code. Their outcomes are inputs.
- Password hashing, `CheckPasswordAsync` and the store's password and user-name policies are not modelled. The password check is a function parameter, and the store's answer to a creation is a `Verdict` input.
- The store normalises user names and emails (upper-casing) before lookups. The model compares them exactly.
- Auth.Register: role names are compared exactly. `RoleExistsAsync` and `AddToRoleAsync` normalise them, so a request for "client" would reuse the existing "Client" role; the model would create a second role "client".
- Auth.Login and Auth.Reconcile: the model takes the first user with a matching email. `FindByEmailAsync` throws when two accounts share an email, and the well-formedness invariant does not require emails to be unique.
- MemberProfiles.Create: the identity store is not consulted for a non-Admin caller. If the caller's account no longer exists, the code's save fails on the foreign key. The model instead creates the profile for that id.
- `PhoneNumber` and `DateOfBirth` are copied into the new user unchanged and read nowhere else, so they are not in the user record.
- Identity.EnsureRole and Identity.AddToRole: role creation is refused only for a blank name, and `AddToRoleAsync` throws only for a missing role. Database errors in either call are not modelled. `AddToRoleAsync` on a membership that already exists returns a failure the code ignores, and the model leaves the store unchanged.
- `UpdateAsync`'s result is ignored by the code, and the model treats the update as always applied.
- The AutoMapper profiles are not part of this model. `Create` is assumed to copy the same-named request fields, and `Update` to overwrite every updatable field, nulls included.
- Response DTOs (user name, counts of bookings, attendances, feedbacks and progress records) and the `User` navigation property are not modelled. `Found` and `CreatedAt` return the stored profile.
- `GetAll` is a plain query with no decision logic and is not modelled.
- The caller is the claim list of the token it presents. Inbound claim-type mapping by the authentication middleware is not modelled.
- Async execution, EF change tracking and `SaveChangesAsync` are not modelled; each operation is one atomic step.
- The attendance, bookings, class-types and public controllers, the auth controller (which maps exceptions to HTTP 400/401) and the web front-end are not part of this model.

=== FILE: auth.dfy ===
/** The authentication service: registration, local login, and federated
    (Google/Firebase) login with reconciliation of the local account. Every
    operation is a pure function from the store (and the framework's answers,
    passed in) to a result and the new store. */
module Auth {
  import opened Results
  import opened Claims
  import opened Identity
  import opened Tokens
  import Text

  const DefaultRole: string := "Client"
  const InvalidCredentials: string := "Invalid credentials"
  const GooglePrefix: string := "Invalid Google Token: "
  const InvalidFormat: string := "Invalid token format"
  const EmailNotFound: string := "Email not found in token"
  const CreationFailedPrefix: string := "User creation failed: "
  /** The framework's message when `FindByEmailAsync` is handed a null email. */
  const NullEmail: string := "Value cannot be null. (Parameter 'email')"

  // ---------------------------------------------------------------- Register

  /** The registration fields the service copies into the new user, and the
      requested role. */
  datatype RegisterRequest = RegisterRequest(
    userName: Option<string>,
    email: Option<string>,
    firstName: Option<string>,
    lastName: Option<string>,
    role: Option<string>)

  /** The default role is not a blank name. */
  lemma DefaultRoleNotBlank()
    ensures !Text.IsNullOrWhiteSpace(Some(DefaultRole))
  {
    assert !Text.IsWhiteSpace(DefaultRole[0]);
  }

  /** The role a registration assigns: the requested one when it is given and
      non-empty, "Client" otherwise; never the empty name, and blank exactly
      when a non-empty blank name was requested. */
  function RoleToAssign(requested: Option<string>): (role: string)
    ensures role != ""
    ensures requested.Some? && requested.value != "" ==> role == requested.value
    ensures requested.None? || requested.value == "" ==> role == DefaultRole
    ensures Text.IsNullOrWhiteSpace(Some(role)) <==>
              !Text.IsNullOrEmpty(requested) && Text.IsNullOrWhiteSpace(requested)
  {
    DefaultRoleNotBlank();
    if !Text.IsNullOrEmpty(requested) then requested.value else DefaultRole
  }

  /** `RegisterAsync`. `newId` is the id the new user object carries and
      `verdict` what the store answers to its creation. */
  function Register(s: Store, dto: RegisterRequest, newId: string, verdict: Verdict): (r: Step<string>)
    requires Wf(s)
    requires verdict.Accepted? ==> !HasUser(s, newId)
    ensures Wf(r.store)
    ensures verdict.Rejected? ==> r == Step(Failure(Text.Join(verdict.descriptions, ", ")), s)
    // once the store accepts the user, the user stays stored, whatever happens to the role
    ensures verdict.Accepted? ==>
      && Find(r.store, ById(newId)) == Some(User(newId, dto.userName, dto.email, dto.firstName, dto.lastName, false))
      && (forall id :: id != newId ==> Find(r.store, ById(id)) == Find(s, ById(id)))
      && (forall id :: id != newId ==> RolesOf(r.store, id) == RolesOf(s, id))
    ensures verdict.Accepted? && !(!Text.IsNullOrEmpty(dto.role) && Text.IsNullOrWhiteSpace(dto.role)) ==>
              r.result == Success(newId)
    // a blank requested role is never created, so linking the new user to it throws
    ensures verdict.Accepted? && !Text.IsNullOrEmpty(dto.role) && Text.IsNullOrWhiteSpace(dto.role) ==>
      && r.result == Failure(RoleNotFound(dto.role.value))
      && RolesOf(r.store, newId) == [] && r.store.roles == s.roles
    ensures r.result.Success? ==>
      && (!Text.IsNullOrEmpty(dto.role) ==>
            RolesOf(r.store, newId) == [dto.role.value] && r.store.roles == s.roles + {dto.role.value})
      && (Text.IsNullOrEmpty(dto.role) ==>
            RolesOf(r.store, newId) == [DefaultRole] && r.store.roles == s.roles + {DefaultRole})
  {
    var u := User(newId, dto.userName, dto.email, dto.firstName, dto.lastName, false);
    match CreateUser(s, u, verdict)
    case Failure(m) => Step(Failure(m), s)
    case Success(s1) =>
      var role := RoleToAssign(dto.role);
      var s2 := EnsureRole(s1, role);
      RolesOfUnknownUser(s, newId);
      match AddToRole(s2, newId, role)
      case Failure(m) => Step(Failure(m), s2)
      case Success(s3) =>
        AddToRolePreservesWf(s2, newId, role);
        Step(Success(newId), s3)
  }

  /** A registration requesting the blank role " " stores the user, creates no
      role, links the user to none, and fails with the store's missing-role
      message. */
  lemma BlankRoleRegistration(s: Store, newId: string)
    requires Wf(s) && !HasUser(s, newId)
    ensures var r := Register(s, RegisterRequest(Some("u"), Some("u@x"), None, None, Some(" ")), newId, Accepted);
      && r.result == Failure("Role   does not exist.")
      && Find(r.store, ById(newId)) == Some(User(newId, Some("u"), Some("u@x"), None, None, false))
      && RolesOf(r.store, newId) == [] && " " !in r.store.roles
  {
    var dto := RegisterRequest(Some("u"), Some("u@x"), None, None, Some(" "));
    assert Text.IsNullOrWhiteSpace(dto.role) by {
      assert Text.IsWhiteSpace(dto.role.value[0]);
    }
    var r := Register(s, dto, newId, Accepted);
    assert RoleNotFound(" ") == "Role   does not exist.";
    assert Text.IsNullOrWhiteSpace(Some(" ")) && Wf(r.store);
  }

  // ------------------------------------------------------------------- Login

  datatype LoginRequest = LoginRequest(userNameOrEmail: string, password: string)

  /** An identifier holding '@' is looked up as an email, any other as a user
      name; exactly one lookup is made. */
  function LookupKey(identifier: string): (k: Key)
    ensures k.ByEmail? <==> '@' in identifier
    ensures k.ByName? <==> '@' !in identifier
    ensures k == ByEmail(identifier) || k == ByName(identifier)
  {
    if '@' in identifier then ByEmail(identifier) else ByName(identifier)
  }

  /** `LoginAsync`. `checkPassword` stands for `CheckPasswordAsync`. */
  function Login(s: Store, dto: LoginRequest, checkPassword: (User, string) -> bool, jti: string, now: int): (r: Result<Token>)
    ensures r.Failure? ==> r.message == InvalidCredentials
    ensures r.Success? <==> (Find(s, LookupKey(dto.userNameOrEmail)).Some?
                             && checkPassword(Find(s, LookupKey(dto.userNameOrEmail)).value, dto.password))
    ensures r.Success? ==> var u := Find(s, LookupKey(dto.userNameOrEmail)).value;
                           r.value == IssueToken(u, RolesOf(s, u.id), jti, now)
  {
    match Find(s, LookupKey(dto.userNameOrEmail))
    case None => Failure(InvalidCredentials)
    case Some(u) =>
      if !checkPassword(u, dto.password) then Failure(InvalidCredentials)
      else Success(IssueToken(u, RolesOf(s, u.id), jti, now))
  }

  /** A successful login identifies an account of the store whose password
      check passed and whose email (identifier with '@') or user name (any other
      identifier) is the identifier, and the token carries that account's id,
      that identifier in the matching claim, and exactly its roles. */
  lemma LoginIdentifiesAccount(s: Store, dto: LoginRequest, checkPassword: (User, string) -> bool, jti: string, now: int)
    requires Login(s, dto, checkPassword, jti, now).Success?
    ensures var t := Login(s, dto, checkPassword, jti, now).value;
      exists u :: u in s.users && checkPassword(u, dto.password)
        && FindFirstValue(t.claims, NameIdentifierType) == Some(u.id)
        && RoleValues(t.claims) == RolesOf(s, u.id)
        && ('@' in dto.userNameOrEmail ==>
              u.email == Some(dto.userNameOrEmail) && FindFirstValue(t.claims, EmailType) == Some(dto.userNameOrEmail))
        && ('@' !in dto.userNameOrEmail ==>
              u.userName == Some(dto.userNameOrEmail) && FindFirstValue(t.claims, NameType) == Some(dto.userNameOrEmail))
  {
    var u := Find(s, LookupKey(dto.userNameOrEmail)).value;
    IssuedClaimsReadBack(u, RolesOf(s, u.id), jti, now);
  }

  /** A login fails, with "Invalid credentials", whenever the password check
      rejects every account, whatever the identifier. */
  lemma LoginWrongPassword(s: Store, dto: LoginRequest, checkPassword: (User, string) -> bool, jti: string, now: int)
    requires forall u :: u in s.users ==> !checkPassword(u, dto.password)
    ensures Login(s, dto, checkPassword, jti, now) == Failure(InvalidCredentials)
  {
  }

  // --------------------------------------------------------- Federated login

  /** The identity provider's payload, as validated or as decoded. */
  datatype Payload = Payload(
    email: Option<string>,
    emailVerified: bool,
    name: Option<string>,
    givenName: Option<string>,
    familyName: Option<string>,
    subject: Option<string>)

  /** What reading the raw token produced: its claims, an object that is not a
      plain JWT (the cast yields null), or an exception with its message. */
  datatype ReadOutcome = Jwt(claims: seq<Claim>) | NotJwt | Unreadable(message: string)

  /** The fallback decode taken when strict validation fails: the email claim
      is mandatory, the display name defaults to the email's local part, and
      the given and family names are its first and second space-separated
      pieces. */
  function DecodeFallback(read: ReadOutcome): (r: Result<Payload>)
    ensures read.Unreadable? ==> r == Failure(read.message)
    ensures read.NotJwt? ==> r == Failure(InvalidFormat)
    ensures read.Jwt? && Text.IsNullOrEmpty(FindFirstValue(read.claims, EmailType)) ==> r == Failure(EmailNotFound)
    ensures read.Jwt? && !Text.IsNullOrEmpty(FindFirstValue(read.claims, EmailType)) ==> r.Success?
    ensures r.Success? ==> read.Jwt? && var cs := read.claims; var p := r.value;
      && p.email.Some? && p.email == FindFirstValue(cs, EmailType) && p.email.value != ""
      && (p.emailVerified <==> FindFirstValue(cs, EmailVerifiedType) == Some("true"))
      && p.subject == Some(FindFirstValue(cs, SubjectType).OrElse(""))
      && p.name.Some? && p.givenName.Some? && p.familyName.Some?
      && (FindFirstValue(cs, DisplayNameType).Some? ==> p.name == FindFirstValue(cs, DisplayNameType))
      && (FindFirstValue(cs, DisplayNameType).None? ==>
            p.name == Some(p.email.value[..Text.IndexOf(p.email.value, '@')]))
      && p.givenName == Some(p.name.value[..Text.IndexOf(p.name.value, ' ')])
      && (' ' !in p.name.value ==> p.familyName == Some(""))
      && (' ' in p.name.value ==>
            var rest := p.name.value[Text.IndexOf(p.name.value, ' ') + 1..];
            p.familyName == Some(rest[..Text.IndexOf(rest, ' ')]))
  {
    match read
    case Unreadable(m) => Failure(m)
    case NotJwt => Failure(InvalidFormat)
    case Jwt(cs) =>
      var email := FindFirstValue(cs, EmailType);
      if Text.IsNullOrEmpty(email) then Failure(EmailNotFound)
      else
        var name := FindFirstValue(cs, DisplayNameType).OrElse(Text.FirstToken(email.value, '@'));
        Text.FirstTokenIsPrefix(email.value, '@');
        Text.FirstTokenIsPrefix(name, ' ');
        Text.SecondTokenAfterFirstSeparator(name, ' ');
        Success(Payload(
          Some(email.value),
          FindFirstValue(cs, EmailVerifiedType) == Some("true"),
          Some(name),
          Some(Text.FirstToken(name, ' ')),
          Some(Text.SecondToken(name, ' ').OrElse("")),
          Some(FindFirstValue(cs, SubjectType).OrElse(""))))
  }

  /** The ordered validation chain: the strictly validated payload when there
      is one, otherwise the fallback decode. */
  function ResolvePayload(validated: Option<Payload>, read: ReadOutcome): (r: Result<Payload>)
    ensures validated.Some? ==> r == Success(validated.value)
    ensures validated.None? ==> r == DecodeFallback(read)
  {
    match validated
    case Some(p) => Success(p)
    case None => DecodeFallback(read)
  }

  /** `payload.GivenName ?? payload.Name?.Split(' ').FirstOrDefault() ?? ""`:
      the provider's given name, else the display name up to its first space,
      else empty. */
  function GivenNameOf(p: Payload): (given: string)
    ensures p.givenName.Some? ==> given == p.givenName.value
    ensures p.givenName.None? && p.name.Some? ==>
              given == p.name.value[..Text.IndexOf(p.name.value, ' ')] && ' ' !in given
    ensures p.givenName.None? && p.name.None? ==> given == ""
  {
    if p.givenName.Some? then p.givenName.value
    else if p.name.Some? then
      Text.FirstTokenIsPrefix(p.name.value, ' ');
      Text.FirstToken(p.name.value, ' ')
    else ""
  }

  /** `payload.FamilyName ?? payload.Name?.Split(' ').Skip(1).FirstOrDefault() ?? ""`:
      the provider's family name, else the display name's second
      space-separated word (empty when it has a single word), else empty. */
  function FamilyNameOf(p: Payload): (family: string)
    ensures p.familyName.Some? ==> family == p.familyName.value
    ensures p.familyName.None? && p.name.Some? && ' ' in p.name.value ==>
              var rest := p.name.value[Text.IndexOf(p.name.value, ' ') + 1..];
              family == rest[..Text.IndexOf(rest, ' ')] && ' ' !in family
    ensures p.familyName.None? && p.name.Some? && ' ' !in p.name.value ==> family == ""
    ensures p.familyName.None? && p.name.None? ==> family == ""
  {
    if p.familyName.Some? then p.familyName.value
    else if p.name.Some? then
      Text.SecondTokenAfterFirstSeparator(p.name.value, ' ');
      Text.SecondToken(p.name.value, ' ').OrElse("")
    else ""
  }

  /** Which store write the reconciliation made. */
  datatype Action = CreatedUser | UpdatedUser | NoWrite

  datatype Reconciled = Reconciled(user: User, store: Store, action: Action)

  /** Matching the payload's email against the store: an unknown email creates
      a "Client" account; a known one has only its empty name fields filled. */
  function Reconcile(s: Store, p: Payload, email: string, newId: string, verdict: Verdict): (r: Result<Reconciled>)
    requires Wf(s)
    requires verdict.Accepted? ==> !HasUser(s, newId)
    ensures r.Success? ==> Wf(r.value.store) && r.value.user in r.value.store.users
                           && r.value.user.email == Some(email)
                           && Find(r.value.store, ById(r.value.user.id)) == Some(r.value.user)
    // no other account, and no other account's roles, is touched
    ensures r.Success? ==> forall id :: id != r.value.user.id ==>
              Find(r.value.store, ById(id)) == Find(s, ById(id)) && RolesOf(r.value.store, id) == RolesOf(s, id)
    // unknown email
    ensures Find(s, ByEmail(email)).None? && verdict.Rejected? ==>
              r == Failure(CreationFailedPrefix + Text.Join(verdict.descriptions, ", "))
    ensures Find(s, ByEmail(email)).None? && verdict.Accepted? ==>
              && r.Success? && r.value.action == CreatedUser
              && r.value.user == User(newId, Some(email), Some(email), Some(GivenNameOf(p)), Some(FamilyNameOf(p)), p.emailVerified)
              && RolesOf(r.value.store, newId) == [DefaultRole]
              && r.value.store.roles == s.roles + {DefaultRole}
    // known email
    ensures Find(s, ByEmail(email)).Some? ==> var u := Find(s, ByEmail(email)).value;
              && r.Success? && r.value.user.id == u.id
              && r.value.user == u.(firstName := r.value.user.firstName, lastName := r.value.user.lastName)
              && (!Text.IsNullOrEmpty(u.firstName) ==> r.value.user.firstName == u.firstName)
              && (!Text.IsNullOrEmpty(u.lastName) ==> r.value.user.lastName == u.lastName)
              && (Text.IsNullOrEmpty(u.firstName) ==> r.value.user.firstName == Some(GivenNameOf(p)))
              && (Text.IsNullOrEmpty(u.lastName) ==> r.value.user.lastName == Some(FamilyNameOf(p)))
              && (r.value.action == UpdatedUser <==> Text.IsNullOrEmpty(u.firstName) || Text.IsNullOrEmpty(u.lastName))
              && (r.value.action == NoWrite ==> r.value.store == s)
              && r.value.store.roles == s.roles && r.value.store.memberships == s.memberships
  {
    match Find(s, ByEmail(email))
    case None =>
      var u := User(newId, Some(email), Some(email), Some(GivenNameOf(p)), Some(FamilyNameOf(p)), p.emailVerified);
      (match CreateUser(s, u, verdict)
       case Failure(m) => Failure(CreationFailedPrefix + m)
       case Success(s1) =>
         var s2 := EnsureRole(s1, DefaultRole);
         DefaultRoleNotBlank();
         RolesOfUnknownUser(s, newId);
         AddToRolePreservesWf(s2, newId, DefaultRole);
         var s3 := AddToRole(s2, newId, DefaultRole).value;
         Success(Reconciled(u, s3, CreatedUser)))
    case Some(u) =>
      var fillFirst := Text.IsNullOrEmpty(u.firstName);
      var fillLast := Text.IsNullOrEmpty(u.lastName);
      var u' := u.(firstName := if fillFirst then Some(GivenNameOf(p)) else u.firstName,
                   lastName := if fillLast then Some(FamilyNameOf(p)) else u.lastName);
      if fillFirst || fillLast then
        Success(Reconciled(u', UpdateUser(s, u'), UpdatedUser))
      else
        assert u' == u;
        assert Find(s, ById(u.id)) == Some(u) by {
          UniqueIdFound(s, u);
        }
        Success(Reconciled(u, s, NoWrite))
  }

  /** In a well-formed store every user is the one its id finds. */
  lemma UniqueIdFound(s: Store, u: User)
    requires Wf(s) && u in s.users
    ensures Find(s, ById(u.id)) == Some(u)
  {
    var i := FindIndex(s.users, ById(u.id)).value;
    var j :| 0 <= j < |s.users| && s.users[j] == u;
    assert s.users[i].id == s.users[j].id;
    assert i == j;
  }

  /** `GoogleLoginAsync`. `validated` is what strict validation produced (none
      when it threw), `read` what reading the raw token produced, and `newId`,
      `verdict` the id and store answer for a user the call may create. Any
      failure is reported as "Invalid Google Token: " followed by its cause. */
  function GoogleLogin(s: Store, validated: Option<Payload>, read: ReadOutcome,
                       newId: string, verdict: Verdict, jti: string, now: int): (r: Step<Token>)
    requires Wf(s)
    requires verdict.Accepted? ==> !HasUser(s, newId)
    ensures Wf(r.store)
    ensures r.result.Failure? ==> r.store == s && Text.StartsWith(r.result.message, GooglePrefix)
    ensures r.result.Success? ==>
      var p := ResolvePayload(validated, read);
      && p.Success? && p.value.email.Some?
      && exists u :: u in r.store.users && u.email == p.value.email
           && Find(r.store, ById(u.id)) == Some(u)
           && r.result.value == IssueToken(u, RolesOf(r.store, u.id), jti, now)
           && (forall id :: id != u.id ==>
                 Find(r.store, ById(id)) == Find(s, ById(id)) && RolesOf(r.store, id) == RolesOf(s, id))
  {
    var inner: Result<Reconciled> :=
      match ResolvePayload(validated, read)
      case Failure(m) => Failure(m)
      case Success(p) =>
        if p.email.None? then Failure(NullEmail)
        else Reconcile(s, p, p.email.value, newId, verdict);
    match inner
    case Failure(m) =>
      assert (GooglePrefix + m)[..|GooglePrefix|] == GooglePrefix;
      Step(Failure(GooglePrefix + m), s)
    case Success(rc) =>
      Step(Success(IssueToken(rc.user, RolesOf(rc.store, rc.user.id), jti, now)), rc.store)
  }

  /** The exact failure messages of a federated login: the fallback decode's
      message when strict validation failed, the framework's null-argument
      message when the validated payload has no email, and the store's joined
      errors when a new account is rejected; every other call succeeds. */
  lemma GoogleLoginFailures(s: Store, validated: Option<Payload>, read: ReadOutcome,
                            newId: string, verdict: Verdict, jti: string, now: int)
    requires Wf(s)
    requires verdict.Accepted? ==> !HasUser(s, newId)
    ensures var r := GoogleLogin(s, validated, read, newId, verdict, jti, now).result;
      var p := ResolvePayload(validated, read);
      && (p.Failure? ==> r == Failure(GooglePrefix + p.message))
      && (p.Success? && p.value.email.None? ==> r == Failure(GooglePrefix + NullEmail))
      && (p.Success? && p.value.email.Some? && Find(s, ByEmail(p.value.email.value)).None? && verdict.Rejected? ==>
            r == Failure(GooglePrefix + CreationFailedPrefix + Text.Join(verdict.descriptions, ", ")))
      && (p.Success? && p.value.email.Some? && (Find(s, ByEmail(p.value.email.value)).Some? || verdict.Accepted?) ==>
            r.Success?)
  {
  }

  /** A first federated login for an email creates an account named by that
      email, with the provider's verification flag, the "Client" role, and a
      token naming the new account and carrying that single role. */
  lemma GoogleFirstLogin(s: Store, validated: Option<Payload>, read: ReadOutcome,
                         newId: string, jti: string, now: int)
    requires Wf(s) && !HasUser(s, newId)
    requires ResolvePayload(validated, read).Success?
    requires var p := ResolvePayload(validated, read).value;
      p.email.Some? && Find(s, ByEmail(p.email.value)).None?
    ensures var p := ResolvePayload(validated, read).value;
      var r := GoogleLogin(s, validated, read, newId, Accepted, jti, now);
      && r.result.Success?
      && Find(r.store, ById(newId)).Some?
      && var u := Find(r.store, ById(newId)).value;
      && u.userName == p.email && u.email == p.email && u.emailConfirmed == p.emailVerified
      && RolesOf(r.store, newId) == [DefaultRole]
      && FindFirstValue(r.result.value.claims, NameIdentifierType) == Some(newId)
      && RoleValues(r.result.value.claims) == [DefaultRole]
  {
    var p := ResolvePayload(validated, read).value;
    var rc := Reconcile(s, p, p.email.value, newId, Accepted).value;
    IssuedClaimsReadBack(rc.user, RolesOf(rc.store, rc.user.id), jti, now);
  }

  /** A federated login for a known email never overwrites a non-empty first
      or last name, fills the empty ones from the payload, writes the account
      back exactly when a field was empty, and leaves the store unchanged
      otherwise. */
  lemma GoogleReturningLogin(s: Store, validated: Option<Payload>, read: ReadOutcome,
                             newId: string, verdict: Verdict, jti: string, now: int)
    requires Wf(s)
    requires verdict.Accepted? ==> !HasUser(s, newId)
    requires ResolvePayload(validated, read).Success?
    requires var p := ResolvePayload(validated, read).value;
      p.email.Some? && Find(s, ByEmail(p.email.value)).Some?
    ensures var p := ResolvePayload(validated, read).value;
      var old_ := Find(s, ByEmail(p.email.value)).value;
      var r := GoogleLogin(s, validated, read, newId, verdict, jti, now);
      && r.result.Success?
      && Find(r.store, ById(old_.id)).Some?
      && var u := Find(r.store, ById(old_.id)).value;
      && (!Text.IsNullOrEmpty(old_.firstName) ==> u.firstName == old_.firstName)
      && (!Text.IsNullOrEmpty(old_.lastName) ==> u.lastName == old_.lastName)
      && (Text.IsNullOrEmpty(old_.firstName) ==> u.firstName == Some(GivenNameOf(p)))
      && (Text.IsNullOrEmpty(old_.lastName) ==> u.lastName == Some(FamilyNameOf(p)))
      && (!Text.IsNullOrEmpty(old_.firstName) && !Text.IsNullOrEmpty(old_.lastName) ==> r.store == s)
      && RolesOf(r.store, old_.id) == RolesOf(s, old_.id)
      && FindFirstValue(r.result.value.claims, NameIdentifierType) == Some(old_.id)
  {
    var p := ResolvePayload(validated, read).value;
    var rc := Reconcile(s, p, p.email.value, newId, verdict).value;
    IssuedClaimsReadBack(rc.user, RolesOf(rc.store, rc.user.id), jti, now);
  }

  /** A concrete display name: the fallback keeps only the second word as the
      family name, so "Mary Ann Smith" becomes given name "Mary" and family
      name "Ann". */
  lemma FallbackTakesSecondWordOnly()
    ensures var r := DecodeFallback(Jwt([Claim(EmailType, "m@x.io"), Claim(DisplayNameType, "Mary Ann Smith")]));
      r.Success? && r.value.givenName == Some("Mary") && r.value.familyName == Some("Ann")
  {
    var cs := [Claim(EmailType, "m@x.io"), Claim(DisplayNameType, "Mary Ann Smith")];
    assert FindFirstValue(cs, EmailType) == Some("m@x.io");
    assert FindFirstValue(cs, DisplayNameType) == Some("Mary Ann Smith") by {
      assert cs[0].kind != DisplayNameType;
      assert cs[1..][0].kind == DisplayNameType;
    }
    Text.SplitOfWords();
  }
}

=== FILE: claims.dfy ===
/** Claims as the service issues them and as the controllers read them back
    from the authenticated principal. A claim is a (type, value) pair; the
    principal of a request is the ordered list of claims of its bearer token. */
module Claims {
  import opened Results

  datatype Claim = Claim(kind: string, value: string)

  // Claim types. The two URIs are the values of .NET's `ClaimTypes`
  // constants; the short names are the JWT registered names and the two
  // custom names the service adds.
  const NameIdentifierType: string := "http://schemas.xmlsoap.org/ws/2005/05/identity/claims/nameidentifier"
  const NameType: string := "http://schemas.xmlsoap.org/ws/2005/05/identity/claims/name"
  const RoleType: string := "http://schemas.microsoft.com/ws/2008/06/identity/claims/role"
  const EmailType: string := "email"
  const EmailVerifiedType: string := "email_verified"
  const DisplayNameType: string := "name"
  const SubjectType: string := "sub"
  const FirstNameType: string := "firstName"
  const LastNameType: string := "lastName"
  const JtiType: string := "jti"

  /** The claim types the service issues are pairwise different. */
  lemma ClaimTypesDistinct()
    ensures NameIdentifierType != NameType && NameIdentifierType != RoleType && NameType != RoleType
    ensures forall t :: t in [EmailType, FirstNameType, LastNameType, JtiType] ==>
              t != NameIdentifierType && t != NameType && t != RoleType
    ensures EmailType != FirstNameType && EmailType != LastNameType && EmailType != JtiType
    ensures FirstNameType != LastNameType && FirstNameType != JtiType && LastNameType != JtiType
  {
    assert |NameIdentifierType| == 68 && |NameType| == 58 && |RoleType| == 60;
  }

  /** `claims.FirstOrDefault(c => c.Type == kind)?.Value`: the value of the
      first claim of that type, or null. `User.FindFirstValue(kind)` is the same
      search except that it compares claim types ignoring case; the types
      compared here are distinct either way. */
  function FindFirstValue(claims: seq<Claim>, kind: string): (r: Option<string>)
    ensures r.None? <==> forall i :: 0 <= i < |claims| ==> claims[i].kind != kind
    ensures r.Some? ==> exists i :: 0 <= i < |claims| && claims[i] == Claim(kind, r.value)
                                    && forall j :: 0 <= j < i ==> claims[j].kind != kind
  {
    if |claims| == 0 then None
    else if claims[0].kind == kind then Some(claims[0].value)
    else
      var r := FindFirstValue(claims[1..], kind);
      assert r.Some? ==> exists i :: 0 <= i < |claims| && claims[i] == Claim(kind, r.value)
                                     && forall j :: 0 <= j < i ==> claims[j].kind != kind by {
        if r.Some? {
          var i :| 0 <= i < |claims[1..]| && claims[1..][i] == Claim(kind, r.value)
                   && forall j :: 0 <= j < i ==> claims[1..][j].kind != kind;
          assert claims[i + 1] == Claim(kind, r.value);
          assert forall j :: 0 <= j < i + 1 ==> claims[j].kind != kind by {
            forall j | 0 <= j < i + 1 ensures claims[j].kind != kind {
              if j > 0 { assert claims[j] == claims[1..][j - 1]; }
            }
          }
        }
      }
      r
  }

  /** The values of the role claims, in order. */
  function RoleValues(claims: seq<Claim>): (roles: seq<string>)
    ensures |roles| <= |claims|
    ensures forall v :: v in roles <==> Claim(RoleType, v) in claims
  {
    if |claims| == 0 then []
    else
      var rest := RoleValues(claims[1..]);
      assert forall c :: c in claims <==> c == claims[0] || c in claims[1..];
      if claims[0].kind == RoleType then [claims[0].value] + rest else rest
  }

  /** `User.IsInRole(role)`: some role claim carries exactly that name. */
  predicate IsInRole(claims: seq<Claim>, role: string) {
    Claim(RoleType, role) in claims
  }

  /** A claim list without role claims grants no role. */
  lemma {:induction false} NoRoleClaims(claims: seq<Claim>)
    requires forall i :: 0 <= i < |claims| ==> claims[i].kind != RoleType
    ensures RoleValues(claims) == []
    decreases |claims|
  {
    if |claims| > 0 {
      NoRoleClaims(claims[1..]);
    }
  }

  /** Role claims of a concatenation are those of each part, in order. */
  lemma {:induction false} RoleValuesAppend(a: seq<Claim>, b: seq<Claim>)
    ensures RoleValues(a + b) == RoleValues(a) + RoleValues(b)
    decreases |a|
  {
    if |a| > 0 {
      assert (a + b)[1..] == a[1..] + b;
      RoleValuesAppend(a[1..], b);
    } else {
      assert a + b == b;
    }
  }

  /** A list of role claims built from role names reads back as those names. */
  lemma {:induction false} RoleValuesOfRoleClaims(roles: seq<string>)
    ensures RoleValues(seq(|roles|, i requires 0 <= i < |roles| => Claim(RoleType, roles[i]))) == roles
    decreases |roles|
  {
    var cs := seq(|roles|, i requires 0 <= i < |roles| => Claim(RoleType, roles[i]));
    if |roles| > 0 {
      var tail := seq(|roles[1..]|, i requires 0 <= i < |roles[1..]| => Claim(RoleType, roles[1..][i]));
      assert cs[1..] == tail;
      RoleValuesOfRoleClaims(roles[1..]);
      assert [roles[0]] + roles[1..] == roles;
    }
  }
}

=== FILE: identity.dfy ===
/** The identity store the authentication service talks to through
    `UserManager` and `RoleManager`: a table of users, the set of existing role
    names, and the user-to-role membership table. The store's own validation
    (password policy, duplicate names) is outside the model; its verdict on a
    user creation is an input. */
module Identity {
  import opened Results
  import Text

  /** The fields of an application user the service reads or writes. */
  datatype User = User(
    id: string,
    userName: Option<string>,
    email: Option<string>,
    firstName: Option<string>,
    lastName: Option<string>,
    emailConfirmed: bool)

  datatype Membership = Membership(userId: string, role: string)

  datatype Store = Store(users: seq<User>, roles: set<string>, memberships: seq<Membership>)

  /** What the store answered to `CreateAsync`: success, or the descriptions
      of the errors it found. */
  datatype Verdict = Accepted | Rejected(descriptions: seq<string>)

  /** A state change together with the operation's result. */
  datatype Step<+T> = Step(result: Result<T>, store: Store)

  predicate HasUser(s: Store, id: string) {
    exists u :: u in s.users && u.id == id
  }

  /** The store's integrity: user ids are unique, no role name is blank (the
      role validator refuses those), every membership links an existing user to
      an existing role, and no membership is recorded twice. */
  predicate Wf(s: Store) {
    && (forall i, j :: 0 <= i < j < |s.users| ==> s.users[i].id != s.users[j].id)
    && (forall r :: r in s.roles ==> !Text.IsNullOrWhiteSpace(Some(r)))
    && (forall m :: m in s.memberships ==> m.role in s.roles && HasUser(s, m.userId))
    && (forall i, j :: 0 <= i < j < |s.memberships| ==> s.memberships[i] != s.memberships[j])
  }

  /** The three lookups the code performs: by id, by user name, by email. */
  datatype Key = ById(id: string) | ByName(name: string) | ByEmail(address: string)

  predicate Matches(u: User, k: Key) {
    match k
    case ById(x) => u.id == x
    case ByName(n) => u.userName == Some(n)
    case ByEmail(e) => u.email == Some(e)
  }

  /** Position of the first user matching the key. */
  function FindIndex(users: seq<User>, k: Key): (r: Option<nat>)
    ensures r.Some? ==> r.value < |users| && Matches(users[r.value], k)
    ensures r.Some? ==> forall j :: 0 <= j < r.value ==> !Matches(users[j], k)
    ensures r.None? <==> forall j :: 0 <= j < |users| ==> !Matches(users[j], k)
  {
    if |users| == 0 then None
    else if Matches(users[0], k) then Some(0)
    else
      match FindIndex(users[1..], k)
      case None => None
      case Some(i) => Some(i + 1)
  }

  /** `FindByIdAsync`, `FindByNameAsync` and the controllers'
      `Users.FirstOrDefaultAsync(...)`: the first matching user, or null.
      `FindByEmailAsync` is modelled by the same search; the store itself throws
      when several users share the email, a case the model does not separate. */
  function Find(s: Store, k: Key): (r: Option<User>)
    ensures r.Some? ==> r.value in s.users && Matches(r.value, k)
    ensures r.None? <==> forall u :: u in s.users ==> !Matches(u, k)
  {
    match FindIndex(s.users, k)
    case None => None
    case Some(i) => Some(s.users[i])
  }

  /** The role names of the memberships that belong to `id`, in table order. */
  function RolesIn(ms: seq<Membership>, id: string): (roles: seq<string>)
    ensures |roles| <= |ms|
    ensures forall r :: r in roles <==> Membership(id, r) in ms
  {
    if |ms| == 0 then []
    else
      var rest := RolesIn(ms[1..], id);
      assert forall m :: m in ms <==> m == ms[0] || m in ms[1..];
      if ms[0].userId == id then [ms[0].role] + rest else rest
  }

  /** `GetRolesAsync(user)`: exactly the roles the membership table records
      for the user, never more names than memberships. */
  function RolesOf(s: Store, id: string): (roles: seq<string>)
    ensures |roles| <= |s.memberships|
    ensures forall r :: r in roles <==> Membership(id, r) in s.memberships
  {
    RolesIn(s.memberships, id)
  }

  /** Recording one more membership appends its role to its user's roles only. */
  lemma {:induction false} RolesInAppend(ms: seq<Membership>, m: Membership, id: string)
    ensures RolesIn(ms + [m], id) == RolesIn(ms, id) + (if m.userId == id then [m.role] else [])
    decreases |ms|
  {
    if |ms| == 0 {
      assert ms + [m] == [m];
    } else {
      assert (ms + [m])[1..] == ms[1..] + [m];
      RolesInAppend(ms[1..], m, id);
    }
  }

  /** A user id that occurs in no membership has no roles. */
  lemma {:induction false} RolesInAbsent(ms: seq<Membership>, id: string)
    requires forall m :: m in ms ==> m.userId != id
    ensures RolesIn(ms, id) == []
    decreases |ms|
  {
    if |ms| > 0 {
      RolesInAbsent(ms[1..], id);
    }
  }

  /** In a well-formed store an id nobody has yet has no roles. */
  lemma RolesOfUnknownUser(s: Store, id: string)
    requires Wf(s) && !HasUser(s, id)
    ensures RolesOf(s, id) == []
  {
    RolesInAbsent(s.memberships, id);
  }

  /** A membership table without duplicates lists each role of a user once. */
  lemma {:induction false} RolesInDistinct(ms: seq<Membership>, id: string)
    requires forall i, j :: 0 <= i < j < |ms| ==> ms[i] != ms[j]
    ensures forall i, j :: 0 <= i < j < |RolesIn(ms, id)| ==> RolesIn(ms, id)[i] != RolesIn(ms, id)[j]
    decreases |ms|
  {
    if |ms| > 0 {
      RolesInDistinct(ms[1..], id);
      if ms[0].userId == id {
        var rest := RolesIn(ms[1..], id);
        assert Membership(id, ms[0].role) !in ms[1..] by {
          forall k | 0 <= k < |ms[1..]| ensures ms[1..][k] != ms[0] {
            assert ms[1..][k] == ms[k + 1];
          }
        }
        assert ms[0].role !in rest;
      }
    }
  }

  /** The roles `GetRolesAsync` reports for a user of a well-formed store are
      existing roles and appear once each. */
  lemma RolesOfWellFormed(s: Store, id: string)
    requires Wf(s)
    ensures forall r :: r in RolesOf(s, id) ==> r in s.roles
    ensures forall i, j :: 0 <= i < j < |RolesOf(s, id)| ==> RolesOf(s, id)[i] != RolesOf(s, id)[j]
  {
    RolesInDistinct(s.memberships, id);
  }

  /** `CreateAsync(user)`: on rejection the exception message joins the error
      descriptions with ", "; on acceptance the user is appended. */
  function CreateUser(s: Store, u: User, verdict: Verdict): (r: Result<Store>)
    requires Wf(s)
    requires verdict.Accepted? ==> !HasUser(s, u.id)
    ensures verdict.Rejected? ==> r == Failure(Text.Join(verdict.descriptions, ", "))
    ensures verdict.Accepted? ==> r.Success? && Wf(r.value)
    ensures r.Success? ==> Find(r.value, ById(u.id)) == Some(u)
                           && r.value.roles == s.roles && r.value.memberships == s.memberships
                           && (forall id :: id != u.id ==> Find(r.value, ById(id)) == Find(s, ById(id)))
  {
    match verdict
    case Rejected(ds) => Failure(Text.Join(ds, ", "))
    case Accepted =>
      var s' := s.(users := s.users + [u]);
      assert forall v :: v in s'.users <==> v in s.users || v == u;
      assert forall i :: 0 <= i < |s.users| ==> s'.users[i] == s.users[i];
      FindAfterAppend(s.users, u, ById(u.id));
      forall id | id != u.id ensures Find(s', ById(id)) == Find(s, ById(id)) {
        FindAfterAppend(s.users, u, ById(id));
      }
      Success(s')
  }

  /** Appending a user does not change which earlier user a key finds first. */
  lemma {:induction false} FindAfterAppend(users: seq<User>, u: User, k: Key)
    ensures FindIndex(users + [u], k) ==
      (if FindIndex(users, k).Some? then FindIndex(users, k)
       else if Matches(u, k) then Some(|users|) else None)
    decreases |users|
  {
    if |users| == 0 {
      assert users + [u] == [u];
    } else {
      assert (users + [u])[1..] == users[1..] + [u];
      FindAfterAppend(users[1..], u, k);
    }
  }

  /** `RoleExistsAsync` followed, when false, by `RoleManager.CreateAsync`. The
      role validator refuses a blank name (empty or white space only); the
      refusal is a result nobody reads, so the store is then unchanged. */
  function EnsureRole(s: Store, role: string): (r: Store)
    ensures role in r.roles <==> role in s.roles || !Text.IsNullOrWhiteSpace(Some(role))
    ensures role in s.roles ==> r == s
    ensures s.roles <= r.roles && r.roles <= s.roles + {role}
    ensures r.users == s.users && r.memberships == s.memberships
    ensures Wf(s) ==> Wf(r)
  {
    if role in s.roles || Text.IsNullOrWhiteSpace(Some(role)) then s
    else s.(roles := s.roles + {role})
  }

  /** The message of the exception the store throws when asked to link a user
      to a role it does not hold. The store prints the upper-cased name, which
      is the name itself for the blank names that reach it here. */
  function RoleNotFound(role: string): string {
    "Role " + role + " does not exist."
  }

  /** `AddToRoleAsync(user, role)`: it throws when the role does not exist; it
      refuses, without change, to record a membership that already exists. */
  function AddToRole(s: Store, id: string, role: string): (r: Result<Store>)
    ensures r.Failure? <==> role !in s.roles
    ensures r.Failure? ==> r.message == RoleNotFound(role)
    ensures r.Success? ==>
      && Membership(id, role) in r.value.memberships
      && r.value.users == s.users && r.value.roles == s.roles
      && (forall m :: m in r.value.memberships <==> m in s.memberships || m == Membership(id, role))
      && (Membership(id, role) !in s.memberships ==> RolesOf(r.value, id) == RolesOf(s, id) + [role])
      && (forall other :: other != id ==> RolesOf(r.value, other) == RolesOf(s, other))
  {
    if role !in s.roles then Failure(RoleNotFound(role))
    else if Membership(id, role) in s.memberships then Success(s)
    else
      var m := Membership(id, role);
      RolesInAppend(s.memberships, m, id);
      forall other | other != id ensures RolesIn(s.memberships + [m], other) == RolesIn(s.memberships, other) {
        RolesInAppend(s.memberships, m, other);
      }
      Success(s.(memberships := s.memberships + [m]))
  }

  /** Ensuring a role twice is the same as ensuring it once. */
  lemma EnsureRoleIdempotent(s: Store, role: string)
    ensures EnsureRole(EnsureRole(s, role), role) == EnsureRole(s, role)
  {
  }

  /** Adding a user who exists to a role that exists succeeds and keeps the
      store well formed. */
  lemma AddToRolePreservesWf(s: Store, id: string, role: string)
    requires Wf(s) && HasUser(s, id) && role in s.roles
    ensures AddToRole(s, id, role).Success? && Wf(AddToRole(s, id, role).value)
  {
    var r := AddToRole(s, id, role).value;
    if Membership(id, role) !in s.memberships {
      assert r.memberships == s.memberships + [Membership(id, role)];
      forall i, j | 0 <= i < j < |r.memberships| ensures r.memberships[i] != r.memberships[j] {
        if j == |s.memberships| {
          assert r.memberships[i] in s.memberships;
        } else {
          assert r.memberships[i] == s.memberships[i] && r.memberships[j] == s.memberships[j];
        }
      }
    }
  }

  /** `UpdateAsync(user)`: the stored record with the same id is replaced. The
      new record is the one its id finds, every other id finds what it found
      before, the roles are untouched and a well-formed store stays well formed. */
  function UpdateUser(s: Store, u: User): (r: Store)
    requires HasUser(s, u.id)
    ensures |r.users| == |s.users| && r.roles == s.roles && r.memberships == s.memberships
    ensures Find(r, ById(u.id)) == Some(u)
    ensures forall id :: id != u.id ==> Find(r, ById(id)) == Find(s, ById(id))
    ensures forall id :: HasUser(r, id) <==> HasUser(s, id)
    ensures Wf(s) ==> Wf(r)
  {
    var r := s.(users := seq(|s.users|, i requires 0 <= i < |s.users| =>
                               if s.users[i].id == u.id then u else s.users[i]));
    assert forall i :: 0 <= i < |s.users| ==> r.users[i].id == s.users[i].id;
    assert exists i :: 0 <= i < |s.users| && s.users[i].id == u.id by {
      var v :| v in s.users && v.id == u.id;
      var i :| 0 <= i < |s.users| && s.users[i] == v;
    }
    FindByIdUnchanged(s.users, r.users, u);
    assert forall id :: HasUser(r, id) <==> HasUser(s, id) by {
      forall id ensures HasUser(r, id) <==> HasUser(s, id) {
        if HasUser(s, id) {
          var v :| v in s.users && v.id == id;
          var i :| 0 <= i < |s.users| && s.users[i] == v;
          assert r.users[i] in r.users;
        }
        if HasUser(r, id) {
          var v :| v in r.users && v.id == id;
          var i :| 0 <= i < |r.users| && r.users[i] == v;
          assert s.users[i] in s.users;
        }
      }
    }
    r
  }

  /** Replacing, position by position, the record carrying `u.id` by `u`
      changes what `ById` finds only for that id. */
  lemma {:induction false} FindByIdUnchanged(a: seq<User>, b: seq<User>, u: User)
    requires |a| == |b|
    requires exists i :: 0 <= i < |a| && a[i].id == u.id
    requires forall i :: 0 <= i < |a| ==> b[i] == (if a[i].id == u.id then u else a[i])
    ensures FindIndex(b, ById(u.id)).Some? && b[FindIndex(b, ById(u.id)).value] == u
    ensures forall id :: id != u.id ==> FindIndex(b, ById(id)) == FindIndex(a, ById(id))
    decreases |a|
  {
    if a[0].id != u.id {
      assert exists i :: 0 <= i < |a[1..]| && a[1..][i].id == u.id by {
        var i :| 0 <= i < |a| && a[i].id == u.id;
        assert a[1..][i - 1] == a[i];
      }
      FindByIdUnchanged(a[1..], b[1..], u);
      forall id | id != u.id ensures FindIndex(b, ById(id)) == FindIndex(a, ById(id)) {
        assert b[0] == a[0];
      }
    } else {
      forall id | id != u.id ensures FindIndex(b, ById(id)) == FindIndex(a, ById(id)) {
        if |a| > 1 {
          IdsElsewhereUnchanged(a[1..], b[1..], u, id);
        }
      }
    }
  }

  /** Same as above, without requiring that `u.id` occurs. */
  lemma {:induction false} IdsElsewhereUnchanged(a: seq<User>, b: seq<User>, u: User, id: string)
    requires |a| == |b| && id != u.id
    requires forall i :: 0 <= i < |a| ==> b[i] == (if a[i].id == u.id then u else a[i])
    ensures FindIndex(b, ById(id)) == FindIndex(a, ById(id))
    decreases |a|
  {
    if |a| > 0 {
      IdsElsewhereUnchanged(a[1..], b[1..], u, id);
    }
  }
}

=== FILE: member_profiles.dfy ===
/** The member-profile controller as operations on the profile table, a map
    from profile id to profile. The caller is the claim list of its bearer
    token; the user table is the identity store's. */
module MemberProfiles {
  import opened Results
  import opened Claims
  import opened Identity
  import Text
  import Tokens

  const AdminRole: string := "Admin"
  const UserNotFound: string := "User not found."
  const AlreadyExists: string := "Member profile already exists for this user."
  const NoProfileForCaller: string := "Member profile not found for current user"

  datatype MemberProfile = MemberProfile(
    id: int,
    userId: string,
    firstName: Option<string>,
    lastName: Option<string>,
    emergencyContactName: Option<string>,
    emergencyContactPhone: Option<string>,
    medicalInfo: Option<string>,
    joinDate: int)

  /** The body of a create request: the target user name an Admin may give,
      and the profile fields. */
  datatype CreateRequest = CreateRequest(
    userName: Option<string>,
    firstName: Option<string>,
    lastName: Option<string>,
    emergencyContactName: Option<string>,
    emergencyContactPhone: Option<string>,
    medicalInfo: Option<string>,
    joinDate: int)

  datatype UpdateRequest = UpdateRequest(
    firstName: Option<string>,
    lastName: Option<string>,
    emergencyContactName: Option<string>,
    emergencyContactPhone: Option<string>,
    medicalInfo: Option<string>)

  /** The HTTP outcomes the controller produces. */
  datatype Response =
    | Unauthorized
    | NotFound(body: Option<string>)
    | BadRequest(message: string)
    | Found(profile: MemberProfile)
    | CreatedAt(profile: MemberProfile)
    | NoContent

  type Profiles = map<int, MemberProfile>

  datatype Outcome = Outcome(response: Response, profiles: Profiles)

  /** Each profile is stored under its own id. */
  predicate KeysAreIds(ps: Profiles) {
    forall k :: k in ps ==> ps[k].id == k
  }

  /** At most one profile per user. */
  predicate OnePerUser(ps: Profiles) {
    forall a, b :: a in ps && b in ps && ps[a].userId == ps[b].userId ==> a == b
  }

  predicate Valid(ps: Profiles) {
    KeysAreIds(ps) && OnePerUser(ps)
  }

  predicate HasProfileFor(ps: Profiles, userId: string) {
    exists k :: k in ps && ps[k].userId == userId
  }

  /** `User.FindFirstValue(ClaimTypes.NameIdentifier)`: the value of the first
      name-identifier claim of the caller's token, or null when it has none. */
  function CallerId(principal: seq<Claim>): (r: Option<string>)
    ensures r.None? <==> forall c :: c in principal ==> c.kind != NameIdentifierType
    ensures r.Some? ==> exists i :: 0 <= i < |principal| && principal[i] == Claim(NameIdentifierType, r.value)
                                    && forall j :: 0 <= j < i ==> principal[j].kind != NameIdentifierType
  {
    FindFirstValue(principal, NameIdentifierType)
  }

  /** `GetMyProfile`: the caller's own profile. */
  method GetMyProfile(ps: Profiles, principal: seq<Claim>) returns (r: Response)
    ensures Text.IsNullOrEmpty(CallerId(principal)) ==> r == Unauthorized
    ensures !Text.IsNullOrEmpty(CallerId(principal)) ==>
      var uid := CallerId(principal).value;
      && (HasProfileFor(ps, uid) ==> r.Found? && r.profile in ps.Values && r.profile.userId == uid)
      && (!HasProfileFor(ps, uid) ==> r == NotFound(Some(NoProfileForCaller)))
  {
    var caller := CallerId(principal);
    if Text.IsNullOrEmpty(caller) {
      return Unauthorized;
    }
    var uid := caller.value;
    if k :| k in ps && ps[k].userId == uid {
      r := Found(ps[k]);
    } else {
      r := NotFound(Some(NoProfileForCaller));
    }
  }

  /** `Get(id)`. */
  function Get(ps: Profiles, id: int): (r: Response)
    ensures r.Found? <==> id in ps
    ensures r.Found? ==> r.profile == ps[id]
    ensures !r.Found? ==> r == NotFound(None)
  {
    if id in ps then Found(ps[id]) else NotFound(None)
  }

  /** Whose profile a create request is for: an Admin naming a user name gets
      that user (or "User not found."); everyone else gets themselves. */
  function TargetUser(store: Store, principal: seq<Claim>, dto: CreateRequest, callerId: string): (r: Result<string>)
    ensures (!IsInRole(principal, AdminRole) || Text.IsNullOrEmpty(dto.userName)) ==> r == Success(callerId)
    ensures IsInRole(principal, AdminRole) && !Text.IsNullOrEmpty(dto.userName) ==>
      && (Find(store, ByName(dto.userName.value)).None? <==> r == Failure(UserNotFound))
      && (r.Success? ==> exists u :: u in store.users && u.userName == dto.userName && u.id == r.value)
    ensures IsInRole(principal, AdminRole) && !Text.IsNullOrEmpty(dto.userName)
            && Find(store, ByName(dto.userName.value)).Some? ==>
              r == Success(Find(store, ByName(dto.userName.value)).value.id)
  {
    if IsInRole(principal, AdminRole) && !Text.IsNullOrEmpty(dto.userName) then
      match Find(store, ByName(dto.userName.value))
      case None => Failure(UserNotFound)
      case Some(u) => Success(u.id)
    else Success(callerId)
  }

  /** `Create`. `freshId` is the id the database gives the new row. */
  function Create(store: Store, ps: Profiles, principal: seq<Claim>, dto: CreateRequest, freshId: int): (r: Outcome)
    requires freshId !in ps
    ensures Text.IsNullOrEmpty(CallerId(principal)) ==> r == Outcome(Unauthorized, ps)
    ensures !r.response.CreatedAt? ==> r.profiles == ps
    ensures r.response.CreatedAt? ==>
      var p := r.response.profile;
      && r.profiles == ps[freshId := p] && |r.profiles| == |ps| + 1
      && p.id == freshId && !HasProfileFor(ps, p.userId)
      && p == MemberProfile(freshId, p.userId, dto.firstName, dto.lastName, dto.emergencyContactName,
                            dto.emergencyContactPhone, dto.medicalInfo, dto.joinDate)
    ensures !Text.IsNullOrEmpty(CallerId(principal)) ==>
      var caller := CallerId(principal).value;
      && ((!IsInRole(principal, AdminRole) || Text.IsNullOrEmpty(dto.userName)) ==>
            && (r.response.CreatedAt? ==> r.response.profile.userId == caller)
            && (HasProfileFor(ps, caller) <==> r.response == BadRequest(AlreadyExists)))
      && (IsInRole(principal, AdminRole) && !Text.IsNullOrEmpty(dto.userName) ==>
            && (Find(store, ByName(dto.userName.value)).None? ==> r == Outcome(BadRequest(UserNotFound), ps))
            && (r.response.CreatedAt? ==> exists u :: u in store.users && u.userName == dto.userName
                                                      && u.id == r.response.profile.userId))
    ensures r.response.Unauthorized? || r.response.BadRequest? || r.response.CreatedAt?
    ensures !Text.IsNullOrEmpty(CallerId(principal)) ==> !r.response.Unauthorized?
    // once the target is known, only an existing profile stops the creation
    ensures !Text.IsNullOrEmpty(CallerId(principal)) ==>
      var target := TargetUser(store, principal, dto, CallerId(principal).value);
      target.Success? ==>
        && (HasProfileFor(ps, target.value) <==> r == Outcome(BadRequest(AlreadyExists), ps))
        && (!HasProfileFor(ps, target.value) ==> r.response.CreatedAt? && r.response.profile.userId == target.value)
    ensures Valid(ps) ==> Valid(r.profiles)
  {
    var caller := CallerId(principal);
    if Text.IsNullOrEmpty(caller) then Outcome(Unauthorized, ps)
    else
      match TargetUser(store, principal, dto, caller.value)
      case Failure(m) => Outcome(BadRequest(m), ps)
      case Success(target) =>
        if HasProfileFor(ps, target) then Outcome(BadRequest(AlreadyExists), ps)
        else
          var p := MemberProfile(freshId, target, dto.firstName, dto.lastName, dto.emergencyContactName,
                                 dto.emergencyContactPhone, dto.medicalInfo, dto.joinDate);
          Outcome(CreatedAt(p), ps[freshId := p])
  }

  /** The update mapping: every field of the request replaces the profile's,
      null included; the id, the owner and the join date are kept. */
  function Apply(p: MemberProfile, dto: UpdateRequest): (r: MemberProfile)
    ensures r.id == p.id && r.userId == p.userId && r.joinDate == p.joinDate
    ensures r.firstName == dto.firstName && r.lastName == dto.lastName
    ensures r.emergencyContactName == dto.emergencyContactName
    ensures r.emergencyContactPhone == dto.emergencyContactPhone && r.medicalInfo == dto.medicalInfo
  {
    p.(firstName := dto.firstName, lastName := dto.lastName,
       emergencyContactName := dto.emergencyContactName,
       emergencyContactPhone := dto.emergencyContactPhone,
       medicalInfo := dto.medicalInfo)
  }

  /** Applying two updates in turn leaves only the second's fields: an update
      does not depend on what earlier updates wrote. */
  lemma ApplyLastWins(p: MemberProfile, first: UpdateRequest, second: UpdateRequest)
    ensures Apply(Apply(p, first), second) == Apply(p, second)
    ensures Apply(Apply(p, second), second) == Apply(p, second)
  {
  }

  /** `Update(id)`. */
  function Update(ps: Profiles, id: int, dto: UpdateRequest): (r: Outcome)
    ensures id !in ps ==> r == Outcome(NotFound(None), ps)
    ensures id in ps ==>
      && r.response == NoContent && r.profiles.Keys == ps.Keys
      && (forall k :: k in ps && k != id ==> r.profiles[k] == ps[k])
      && r.profiles[id].id == ps[id].id && r.profiles[id].userId == ps[id].userId
      && r.profiles[id].joinDate == ps[id].joinDate
      && r.profiles[id].firstName == dto.firstName && r.profiles[id].lastName == dto.lastName
      && r.profiles[id].emergencyContactName == dto.emergencyContactName
      && r.profiles[id].emergencyContactPhone == dto.emergencyContactPhone
      && r.profiles[id].medicalInfo == dto.medicalInfo
    ensures Valid(ps) ==> Valid(r.profiles)
  {
    if id !in ps then Outcome(NotFound(None), ps)
    else Outcome(NoContent, ps[id := Apply(ps[id], dto)])
  }

  /** `Delete(id)`. */
  function Delete(ps: Profiles, id: int): (r: Outcome)
    ensures id !in ps ==> r == Outcome(NotFound(None), ps)
    ensures id in ps ==>
      && r.response == NoContent
      && r.profiles.Keys == ps.Keys - {id} && |r.profiles| == |ps| - 1
      && (forall k :: k in r.profiles ==> r.profiles[k] == ps[k])
    ensures Valid(ps) ==> Valid(r.profiles)
  {
    if id !in ps then Outcome(NotFound(None), ps)
    else Outcome(NoContent, ps - {id})
  }

  /** End to end: a caller presenting a token issued for account `u` without
      the Admin role can only ever create a profile for `u`, and is refused
      when `u` already has one. */
  lemma CreateWithIssuedToken(store: Store, ps: Profiles, dto: CreateRequest, freshId: int,
                              u: User, roles: seq<string>, jti: string, now: int)
    requires freshId !in ps
    requires u.id != "" && AdminRole !in roles
    ensures var r := Create(store, ps, Tokens.IssueToken(u, roles, jti, now).claims, dto, freshId);
      && (r.response.CreatedAt? ==> r.response.profile.userId == u.id)
      && (HasProfileFor(ps, u.id) <==> r.response == BadRequest(AlreadyExists))
      && (!HasProfileFor(ps, u.id) ==> r.response.CreatedAt?)
  {
    Tokens.IssuedClaimsReadBack(u, roles, jti, now);
  }
}

=== FILE: results.dfy ===
/** Failure-carrying values used by every other module.

    The service signals failure by throwing an exception whose message is the
    only thing a caller ever sees; `Result` keeps exactly that message.
    C#'s nullable references (`string?`) are modelled by `Option`. */
module Results {

  /** A nullable reference: `None` plays the part of C#'s `null`. */
  datatype Option<+T> = None | Some(value: T) {

    /** The C# null-coalescing operator `this ?? default`. */
    function OrElse(default: T): T {
      match this
      case Some(v) => v
      case None => default
    }
  }

  /** The outcome of an operation that may throw: the value, or the
      message of the exception. */
  datatype Result<+T> = Success(value: T) | Failure(message: string)
}

=== FILE: text.dfy ===
/** The handful of .NET string operations the authentication service relies on:
    `String.IsNullOrEmpty`, `String.Contains`, `String.Split(char)` (which keeps
    empty pieces), `String.Join`, and the two token selectors built on `Split`
    (`FirstOrDefault()` and `Skip(1).FirstOrDefault()`). */
module Text {
  import opened Results

  /** `string.IsNullOrEmpty(s)`. */
  predicate IsNullOrEmpty(s: Option<string>) {
    s.None? || s.value == ""
  }

  /** `char.IsWhiteSpace(c)`: the Unicode space, line and paragraph
      separators, and the control characters U+0009 to U+000D and U+0085. */
  predicate IsWhiteSpace(c: char) {
    || c == ' ' || '\t' <= c <= '\r' || c == '\U{85}' || c == '\U{A0}' || c == '\U{1680}'
    || '\U{2000}' <= c <= '\U{200A}' || c == '\U{2028}' || c == '\U{2029}' || c == '\U{202F}'
    || c == '\U{205F}' || c == '\U{3000}'
  }

  /** `string.IsNullOrWhiteSpace(s)`. */
  predicate IsNullOrWhiteSpace(s: Option<string>) {
    s.None? || forall i :: 0 <= i < |s.value| ==> IsWhiteSpace(s.value[i])
  }

  /** `s.StartsWith(prefix)`. */
  predicate StartsWith(s: string, prefix: string) {
    |prefix| <= |s| && s[..|prefix|] == prefix
  }

  /** Position of the first occurrence of `c` in `s`, or `|s|` when there is none. */
  function IndexOf(s: string, c: char): (i: nat)
    ensures i <= |s|
    ensures i < |s| ==> s[i] == c
    ensures forall j :: 0 <= j < i ==> s[j] != c
    ensures i == |s| <==> c !in s
  {
    if |s| == 0 then 0
    else if s[0] == c then 0
    else 1 + IndexOf(s[1..], c)
  }

  /** `s.Split(sep)`: the pieces between occurrences of `sep`, empty pieces
      included, so there is always at least one piece. */
  function Split(s: string, sep: char): (parts: seq<string>)
    ensures |parts| >= 1
    ensures forall i :: 0 <= i < |parts| ==> sep !in parts[i]
    decreases |s|
  {
    if |s| == 0 then [""]
    else
      var rest := Split(s[1..], sep);
      if s[0] == sep then [""] + rest
      else [[s[0]] + rest[0]] + rest[1..]
  }

  /** `string.Join(sep, parts)`: the pieces in order with `sep` between
      neighbours, so the first piece starts the result and the last one ends it. */
  function Join(parts: seq<string>, sep: string): (r: string)
    ensures |parts| == 0 ==> r == ""
    ensures |parts| == 1 ==> r == parts[0]
    ensures |parts| >= 1 ==> parts[0] <= r
    ensures |parts| >= 2 ==> parts[0] + sep <= r
  {
    if |parts| == 0 then ""
    else if |parts| == 1 then parts[0]
    else
      var tail := Join(parts[1..], sep);
      var r := parts[0] + sep + tail;
      assert r[..|parts[0] + sep|] == parts[0] + sep;
      r
  }

  /** The last piece ends the joined text. */
  lemma {:induction false} JoinEndsWithLast(parts: seq<string>, sep: string)
    requires |parts| >= 1
    ensures var r := Join(parts, sep); var last := parts[|parts| - 1];
      |last| <= |r| && r[|r| - |last|..] == last
    decreases |parts|
  {
    if |parts| >= 2 {
      JoinEndsWithLast(parts[1..], sep);
      var tail := Join(parts[1..], sep);
      var r := parts[0] + sep + tail;
      assert Join(parts, sep) == r;
      assert r[|r| - |tail|..] == tail;
      assert parts[1..][|parts[1..]| - 1] == parts[|parts| - 1];
    }
  }

  /** `s.Split(sep).FirstOrDefault()`; never null, because `Split` never
      returns an empty array. */
  function FirstToken(s: string, sep: char): string {
    Split(s, sep)[0]
  }

  /** `s.Split(sep).Skip(1).FirstOrDefault()`: the second piece, or null. */
  function SecondToken(s: string, sep: char): Option<string> {
    var parts := Split(s, sep);
    if |parts| >= 2 then Some(parts[1]) else None
  }

  /** Joining the pieces of a split with the separator gives back the input. */
  lemma {:induction false} JoinSplit(s: string, sep: char)
    ensures Join(Split(s, sep), [sep]) == s
    decreases |s|
  {
    if |s| > 0 {
      var rest := Split(s[1..], sep);
      JoinSplit(s[1..], sep);
      if s[0] == sep {
        assert ([""] + rest)[1..] == rest;
      } else {
        var parts := [[s[0]] + rest[0]] + rest[1..];
        if |rest| >= 2 {
          assert parts[1..] == rest[1..];
          assert Join(rest, [sep]) == rest[0] + [sep] + Join(rest[1..], [sep]);
        }
        assert s == [s[0]] + s[1..];
      }
    }
  }

  /** A string without the separator splits into itself alone. */
  lemma {:induction false} SplitWithoutSeparator(t: string, sep: char)
    requires sep !in t
    ensures Split(t, sep) == [t]
    decreases |t|
  {
    if |t| > 0 {
      assert sep !in t[1..] by {
        forall k | 0 <= k < |t[1..]| ensures t[1..][k] != sep {
          assert t[1..][k] == t[k + 1];
        }
      }
      SplitWithoutSeparator(t[1..], sep);
      assert [t[0]] + t[1..] == t;
    }
  }

  /** Splitting `t + sep + r`, where `t` holds no separator, yields `t` followed
      by the pieces of `r`. */
  lemma {:induction false} SplitAfterPiece(t: string, r: string, sep: char)
    requires sep !in t
    ensures Split(t + [sep] + r, sep) == [t] + Split(r, sep)
    decreases |t|
  {
    var s := t + [sep] + r;
    if |t| == 0 {
      assert s[1..] == r;
    } else {
      assert sep !in t[1..] by {
        forall k | 0 <= k < |t[1..]| ensures t[1..][k] != sep {
          assert t[1..][k] == t[k + 1];
        }
      }
      assert s[1..] == t[1..] + [sep] + r;
      SplitAfterPiece(t[1..], r, sep);
      assert [t[0]] + t[1..] == t;
    }
  }

  /** Splitting a join of separator-free pieces gives back the pieces. */
  lemma {:induction false} SplitJoin(parts: seq<string>, sep: char)
    requires |parts| >= 1
    requires forall i :: 0 <= i < |parts| ==> sep !in parts[i]
    ensures Split(Join(parts, [sep]), sep) == parts
    decreases |parts|
  {
    if |parts| == 1 {
      SplitWithoutSeparator(parts[0], sep);
    } else {
      SplitJoin(parts[1..], sep);
      SplitAfterPiece(parts[0], Join(parts[1..], [sep]), sep);
      assert [parts[0]] + parts[1..] == parts;
    }
  }

  /** The shape of a split: its first piece is everything before the first
      separator, and when there is a separator the remaining pieces are the
      split of what follows it. */
  lemma SplitAtFirst(s: string, sep: char)
    ensures Split(s, sep)[0] == s[..IndexOf(s, sep)]
    ensures sep !in s ==> Split(s, sep) == [s]
    ensures sep in s ==> Split(s, sep) == [s[..IndexOf(s, sep)]] + Split(s[IndexOf(s, sep) + 1..], sep)
  {
    var i := IndexOf(s, sep);
    if sep in s {
      var head, rest := s[..i], s[i + 1..];
      assert sep !in head by {
        forall k | 0 <= k < |head| ensures head[k] != sep {
          assert head[k] == s[k];
        }
      }
      assert s == head + [sep] + rest;
      SplitAfterPiece(head, rest, sep);
      assert Split(s, sep) == [head] + Split(rest, sep);
    } else {
      SplitWithoutSeparator(s, sep);
      assert s[..i] == s;
    }
  }

  /** `FirstToken` is the text before the first separator (all of it when there
      is none). */
  lemma FirstTokenIsPrefix(s: string, sep: char)
    ensures FirstToken(s, sep) == s[..IndexOf(s, sep)]
    ensures sep !in FirstToken(s, sep)
    ensures sep !in s ==> FirstToken(s, sep) == s
  {
    SplitAtFirst(s, sep);
  }

  /** `SecondToken` exists exactly when the separator occurs, and is then the
      first token of the text after the first separator; it is never the whole
      remainder when that remainder holds another separator. */
  lemma SecondTokenAfterFirstSeparator(s: string, sep: char)
    ensures SecondToken(s, sep).Some? <==> sep in s
    ensures sep in s ==> SecondToken(s, sep) == Some(FirstToken(s[IndexOf(s, sep) + 1..], sep))
    ensures sep in s ==> var rest := s[IndexOf(s, sep) + 1..];
              SecondToken(s, sep) == Some(rest[..IndexOf(rest, sep)])
  {
    SplitAtFirst(s, sep);
    if sep in s {
      FirstTokenIsPrefix(s[IndexOf(s, sep) + 1..], sep);
    }
  }

  /** A three-word display name splits into its three words. */
  lemma SplitOfWords()
    ensures Split("Mary Ann Smith", ' ') == ["Mary", "Ann", "Smith"]
    ensures FirstToken("Mary Ann Smith", ' ') == "Mary"
    ensures SecondToken("Mary Ann Smith", ' ') == Some("Ann")
  {
    var words := ["Mary", "Ann", "Smith"];
    assert Join(words, " ") == "Mary Ann Smith" by {
      assert words[1..][1..] == ["Smith"];
      assert Join(words[1..], " ") == "Ann Smith";
    }
    SplitJoin(words, ' ');
  }
}

=== FILE: tokens.dfy ===
/** The claim list and expiry of the bearer token the service issues.
    Signing and serialisation are not modelled: a token is its claim list and
    its expiry instant (in seconds), and the per-token unique id (`jti`) and the
    issuing instant are inputs. */
module Tokens {
  import opened Results
  import opened Claims
  import Identity

  /** Tokens expire one hour after issue. */
  const LifetimeSeconds: int := 3600

  datatype Token = Token(claims: seq<Claim>, expires: int)

  /** The claim list of `GenerateJwtToken`: six identity claims, null fields
      rendered as "", followed by one role claim per role. */
  function BuildClaims(u: Identity.User, roles: seq<string>, jti: string): (cs: seq<Claim>)
    ensures |cs| == 6 + |roles|
    ensures RoleValues(cs) == roles
  {
    var fixed := [
      Claim(NameIdentifierType, u.id),
      Claim(NameType, u.userName.OrElse("")),
      Claim(EmailType, u.email.OrElse("")),
      Claim(FirstNameType, u.firstName.OrElse("")),
      Claim(LastNameType, u.lastName.OrElse("")),
      Claim(JtiType, jti)
    ];
    var roleClaims := seq(|roles|, i requires 0 <= i < |roles| => Claim(RoleType, roles[i]));
    RoleValuesAppend(fixed, roleClaims);
    RoleValuesOfRoleClaims(roles);
    ClaimTypesDistinct();
    NoRoleClaims(fixed);
    fixed + roleClaims
  }

  /** `GenerateJwtToken(user)` with the user's current roles. */
  function IssueToken(u: Identity.User, roles: seq<string>, jti: string, now: int): (t: Token)
    ensures t.expires == now + LifetimeSeconds
    ensures RoleValues(t.claims) == roles
  {
    Token(BuildClaims(u, roles, jti), now + LifetimeSeconds)
  }

  /** Every identity claim reads back as the issued user's field (null as ""),
      and the principal is in a role exactly when the role was issued. */
  lemma IssuedClaimsReadBack(u: Identity.User, roles: seq<string>, jti: string, now: int)
    ensures var cs := IssueToken(u, roles, jti, now).claims;
      && FindFirstValue(cs, NameIdentifierType) == Some(u.id)
      && FindFirstValue(cs, NameType) == Some(u.userName.OrElse(""))
      && FindFirstValue(cs, EmailType) == Some(u.email.OrElse(""))
      && FindFirstValue(cs, FirstNameType) == Some(u.firstName.OrElse(""))
      && FindFirstValue(cs, LastNameType) == Some(u.lastName.OrElse(""))
      && FindFirstValue(cs, JtiType) == Some(jti)
      && (forall r :: IsInRole(cs, r) <==> r in roles)
  {
    var cs := IssueToken(u, roles, jti, now).claims;
    ClaimTypesDistinct();
    assert cs[0] == Claim(NameIdentifierType, u.id);
    assert cs[1..][0] == Claim(NameType, u.userName.OrElse(""));
    assert cs[1..][1..][0] == Claim(EmailType, u.email.OrElse(""));
    assert cs[1..][1..][1..][0] == Claim(FirstNameType, u.firstName.OrElse(""));
    assert cs[1..][1..][1..][1..][0] == Claim(LastNameType, u.lastName.OrElse(""));
    assert cs[1..][1..][1..][1..][1..][0] == Claim(JtiType, jti);
  }

  /** Tokens issued with different unique ids differ, whatever the users,
      roles and instants: no two issued tokens are equal. */
  lemma DistinctJtiDistinctTokens(u1: Identity.User, roles1: seq<string>, jti1: string, now1: int,
                                  u2: Identity.User, roles2: seq<string>, jti2: string, now2: int)
    requires jti1 != jti2
    ensures IssueToken(u1, roles1, jti1, now1) != IssueToken(u2, roles2, jti2, now2)
  {
    var t1 := IssueToken(u1, roles1, jti1, now1);
    var t2 := IssueToken(u2, roles2, jti2, now2);
    IssuedClaimsReadBack(u1, roles1, jti1, now1);
    IssuedClaimsReadBack(u2, roles2, jti2, now2);
    assert FindFirstValue(t1.claims, JtiType) != FindFirstValue(t2.claims, JtiType);
  }
}
